=== FILE: README.md ===
# culsim in Dafny: Axelrod-style cultural diffusion on a grid

culsim runs a cellular automaton. Every cell of a `width × width` grid holds a
*culture*: an integer whose six low nibbles are six *traits*, each in
[0, 15]. Each tick, a number of randomly chosen cells (`-n`, default 100)
meet their neighbours. A neighbour accepts an exchange with probability
`1 - d/96`, where `d` is the summed trait difference over slots 0..4. An
accepted exchange between differing cultures copies one trait. After every
tick the program records three values:

- the grid's average feature distance;
- the number of exchanges divided by the width;
- the number of distinct cultures.

Once the tick counter passes the duration (`-d`), it saves the three series and exits.

The model has five modules, one per file:

- `Bits` (`bits.dfy`): Go's `>>`, `<<`, `&` and `^`, defined bit by bit. `>>` takes any integer, `&` any integer and a non-negative mask, and `<<` and `^` non-negative operands only, which is all the codec needs. It also has the nibble lemmas the codec needs.
- `Codec` (`codec.dfy`): `extract`, `replace` and `MASKARRAY`.
- `Metrics` (`metrics.dfy`): the distance and diversity metrics. These are `traitDistance`, `diff`, `featureDistance`, `featureDistAvg` and `similarCount`. The loops of the last two are modelled as methods and proved equal to their functional definitions.
- `Exchange` (`exchange.dfy`): the exchange body of `Process`. It covers one neighbour, the loop over a cell's neighbours, and the interaction loop of a tick with its per-sample metric recompute.
- `Simulation` (`simulation.dfy`): `Init`, the tick control and series appends of `Process`, and runs of many ticks.

Every random draw is an input:

- A `Seed` per cell for `Init`: covered or not, and the drawn culture.
- A `Sample` per interaction: the chosen cell, plus one `Draw` per neighbour. A `Draw` says whether `dp < probability` held and which slot and direction were drawn.

The grid library's neighbour lookup is a `Topology` table. It gives each cell the list of its neighbours' positions.

The model follows the code. In these places the code behaves differently from what its names and constants suggest:

- **Empty check.** The exchange loop skips a sampled cell or neighbour whose value is 0 (`!= 0x0000`). `featureDistAvg` skips only neighbours whose value is 0: a centre cell holding 0 is still counted. `similarCount` counts 0 as a value. `Init` writes 0xFFFFFF into uncovered cells, so uncovered cells take part in exchanges and metrics like any other culture. `Simulation.InitEmptyCells` states which cells the loop does skip.
- **`featureDistance`.** It counts matches over slots 0..4 only and returns `6 - matches`. The result is therefore in [1, 6], one more than the number of differing compared slots. It is not the count of differing slots.
- **`Init` culture range.** It draws cultures with `rand.Intn(0xFFFFFF)`, so a covered cell never holds 0xFFFFFF.
- **`Init` and the tick counter.** `Init` does not reset the tick counter. The counter starts at 0 only because it is a package variable.
- **Direction draw.** `rand.Intn(1)` always returns 0, so only the first direction branch runs. Both branches write the neighbour.
- **Per-sample metrics.** The metrics are recomputed after every interaction; only the last value is kept. With `-n` at 0 or below, the recorded distance and unique count are 0.
- **Tick count.** The stop test is `tick > duration`, so `duration + 1` ticks run.

## Model

| member | source | states |
|---|---|---|
| Codec.Extract | main.go:188-191 | The trait at a slot is the slot's base-16 digit of the value (of its two's complement if negative). It is always in [0, 15], for any integer and any slot. |
| Codec.ExtractIsShiftAndMask | main.go:189-191 | The program's `(n >> (4*pos)) & 0xF`, with `>>` as Go's arithmetic shift and `&` bit by bit, equals `Extract` on every integer and slot. |
| Codec.Replace | main.go:194-198 | For a trait in [0, 15], the result is a 24-bit culture. Reading slot `pos` back gives the new trait, and every other slot keeps the trait of `n`: the extract/replace round trip. |
| Codec.EqualByTraits | main.go:189-191 | Two 24-bit cultures with equal traits in all six slots are equal, so the six extracts determine a culture. |
| Codec.ReplaceOwnTrait | main.go:189-198 | Writing a slot's own trait back leaves a culture unchanged. |
| Codec.ReplaceTwice | main.go:194-198 | Two writes to the same slot: the last one wins. |
| Codec.ReplaceCommutes | main.go:194-198 | Writes to two different slots commute. |
| Metrics.TraitDistance | main.go:180-186 | The absolute trait difference is at most 15, and it is 0 exactly when the two traits are equal. |
| Metrics.TraitDistanceSymmetric | main.go:180-186 | The trait distance is symmetric. |
| Metrics.DiffBelowZeroIffAgree | main.go:134-140 | A sum of trait distances over the first `k` slots is 0 exactly when the cultures agree on those slots. |
| Metrics.CultureDiff | main.go:134-140 | The summed difference over slots 0..4 is at most 75, and it is 0 exactly when slots 0..4 agree. |
| Metrics.Diff | main.go:134-140 | `diff(a1, a2)` on grid cells: the same bounds and zero test, and a cell's difference with itself is 0. |
| Metrics.CultureDiffSymmetric | main.go:134-140 | The difference is symmetric in the two cultures. |
| Metrics.CultureDiffIgnoresLastSlot | main.go:134-140 | Rewriting slot 5 of a culture never changes its difference to another culture. |
| Metrics.ExchangeProbabilityBounds | main.go:87-89 | The exchange probability `1 - d/96` lies in [21/96, 1]. It is 1 exactly when slots 0..4 agree. |
| Metrics.MatchesBelow | main.go:159-168 | The number of agreeing slots below `k` is at most `k`, plus the number of differing slots it is exactly `k`, and it equals `k` only when all agree. |
| Metrics.FeatureDistance | main.go:159-168 | `6 - matches` over slots 0..4 lies in [1, 6]. It equals 1 plus the number of differing compared slots, and it is 1 exactly when slots 0..4 agree. |
| Metrics.FeatureDistanceSymmetric | main.go:159-168 | The feature distance is symmetric. |
| Metrics.NeighbourSum | main.go:146-153 | The summed feature distance from a cell to its non-empty neighbours is between their count and six times it. |
| Metrics.GridSum | main.go:145-154 | The grid-wide sum is between the number of (cell, non-empty neighbour) pairs and six times that number. |
| Metrics.FeatureDistAvg | main.go:143-156 | With coverage 1.0, the average `dist/width` is never negative. It lies between the pair count and six times the pair count, each integer-divided by the width. |
| Metrics.FeatureDistAvgLoop | main.go:143-156 | The program's nested count/sum loops, followed by the division by width, compute `FeatureDistAvg`. |
| Metrics.SimilarCount | main.go:171-177 | The count is the number of distinct culture values. It is at most the number of cells, and at least 1 on a non-empty grid. |
| Metrics.SimilarCountOneIffUniform | main.go:171-177 | The count is 1 exactly when every cell holds the same culture. |
| Metrics.SimilarCountLoop | main.go:171-177 | Collecting the values as keys of a map and taking its size gives `SimilarCount`. |
| Exchange.ExchangeStep | main.go:85-108 | Only the neighbour can change. The count rises by one exactly when the draw is accepted and slots 0..4 differ, and otherwise nothing changes. The neighbour stays a culture. With direction 0 it takes `r`'s trait at the drawn slot and keeps its others; otherwise it gets `r`'s traits with its own at that slot. |
| Exchange.ExchangeCopiesIntoNeighbour | main.go:92-106 | With the only direction `rand.Intn(1)` returns, an accepted exchange between differing cultures sets the neighbour to `replace(neighbour, extract(r, i), i)` and leaves `r` alone. The neighbour's value changes exactly when its trait at slot `i` differed from `r`'s. |
| Exchange.IdenticalCulturesDoNotExchange | main.go:87-95 | When slots 0..4 agree, no draw changes the grid or the count. |
| Exchange.CountedExchangeWithoutChange | main.go:95-106 | An exchange is counted even when the neighbour already has the copied trait: the count rises while the grid stays the same. |
| Exchange.VisitNeighbours | main.go:83-111 | Visiting the neighbours in order changes only listed neighbours, and never the sampled cell itself. The count rises by at most one per neighbour. When no draw is accepted, neither the grid nor the count changes. A grid of culture values stays one. |
| Exchange.Interaction | main.go:80-111 | A sampled cell holding 0 does nothing. Otherwise only its neighbours can change, never the sampled cell itself. The count rises by at most the number of neighbours. When none of the sample's draws is accepted, nothing changes. A grid of culture values stays one. |
| Exchange.RunSamples | main.go:78-117 | After at least one interaction, the recorded distance and unique count are the metrics of the final grid. With none, the incoming values are kept. A cell that no sampled cell lists as a neighbour keeps its value. The exchange count rises by at most one per neighbour visit of the samples. When no draw is accepted, the count and the grid are unchanged. |
| Simulation.Init | main.go:51-66 | The grid has `width*width` cells. A cell is 0xFFFFFF exactly when it is uncovered, and a covered cell holds its drawn culture. All cells are cultures. The three series restart empty under the headers "distance", "change" and "unique". The tick counter is kept. |
| Simulation.InitEmptyCells | main.go:57-61 | After `Init`, a cell counts as empty for the exchange loop exactly when it is covered and its drawn culture is 0. Uncovered cells are not empty. |
| Simulation.Process | main.go:68-120 | It halts, leaving the state as is, exactly when `tick > duration`. Otherwise the tick goes up by one and each series gains exactly one value, with earlier values untouched. A cell that no sampled cell lists as a neighbour keeps its value. The change value lies between 0 and the tick's number of neighbour visits. A tick with no accepted draw leaves the grid unchanged and records change 0. With interactions at 0 or below, the grid is unchanged and the three values are 0. Otherwise the distance and unique values are the final grid's average feature distance and distinct-culture count (at least 1). |
| Simulation.PerRow | main.go:119 | The recorded change value `chg/width` is between 0 and the exchange count. |
| Simulation.RunLength | main.go:72-120 | A run performs `min(schedule length, max(0, duration + 1 - tick))` ticks. It halts exactly when the schedule outlasts that budget. The counter advances by the ticks run, and each series gains that many values. |
| Simulation.StartRunsDurationPlusOneTicks | main.go:51-120 | From the start state and `Init`, a long enough schedule runs exactly `duration + 1` ticks. The run then halts with `duration + 1` values in each series. |
| Simulation.InitRunSeriesAligned | main.go:65-120 | After `Init`, a run of any length leaves the three series with one value per tick each, so they always have equal length. |

## Left out

- Flag parsing and the grid library's global width (main.go:35-41) are left out. The settings are a `Config` value.
- Pseudo-random numbers are left out. `rand.Float64` and `rand.Intn` become the inputs `Seed`, `Sample` and `Draw`.
- The comparison `dp < probability` is left out. Its floating-point outcome is the boolean `Draw.accepted`. `Metrics.ExchangeProbabilityBounds` states the probability as an exact rational.
- The grid library is left out: cell creation, `RGB`/`SetRGB`, running the loop and the neighbour lookup. Cells are plain integers, and neighbours come from a `Topology` table.
- Saving the series to a CSV file, the file name and `Exit` (main.go:47-49, 201-219) are left out because they are I/O.
- Printing and `os.Exit` (main.go:74, 122-130) are left out. Halting is the `Halted` outcome.
- Series values are integers, not the decimal strings `strconv.Itoa` makes.
- Metrics.FeatureDistAvg: the final `int(float64(dist/width) * coverage)` step is left out, because it is floating point. The model is exact for the default coverage 1.0. The `-c` flag is not validated, and for any other coverage the program multiplies by the coverage and truncates toward zero. Below 1 the result is smaller once `dist/width` is at least 1. At 1 or above it is never smaller (1.5 × 1 still records 1). Below 0 it is 0 or negative. This model states none of that, and its "never negative" holds only at coverage 1.0.
- Simulation.Process: the recorded distance is the coverage-1.0 value `FeatureDistAvg`. `Init` admits uncovered seeds, but the program only draws one when coverage is below 1, and then it scales the distance by the coverage. So for a run with an uncovered seed the model records a distance the program would scale down.
- Codec.Replace: a replacement outside [0, 15] is allowed but nothing is stated about it. A negative replacement is not modelled, because the program only passes extracted traits.
- Culture values are unbounded integers. Go's 64-bit `int` never overflows on them, because every culture value is below 2^24. The counters `tick`, `chg` and `dist` are also unbounded. In Go they could overflow only after about 2^63 ticks: with `-d` at `math.MaxInt64`, `tick++` would wrap and the `tick > duration` guard would never fire, whereas `Simulation.RunLength` halts after `duration + 1` ticks.

=== FILE: bits.dfy ===
/**
 * Bit-level arithmetic on Go's `int`, stated over Dafny's unbounded integers.
 *
 * Go's `>>` on a signed int is an arithmetic shift, i.e. floor division by a
 * power of two; Dafny's `/` with a positive divisor is exactly that. `&` with
 * a non-negative mask and `^` on non-negative operands are defined bit by bit,
 * least significant bit first. Everything the trait codec needs is then
 * proved one base-16 digit ("nibble") at a time.
 */
module Bits {

  /** 2^k */
  function Pow2(k: nat): (p: nat)
    ensures p >= 1
  {
    if k == 0 then 1 else 2 * Pow2(k - 1)
  }

  /** 16^k */
  function Pow16(k: nat): (p: nat)
    ensures p >= 1
  {
    if k == 0 then 1 else 16 * Pow16(k - 1)
  }

  /** Go's `x << s` on a non-negative value, for a shift that does not overflow. */
  function ShiftLeft(x: nat, s: nat): nat
  {
    if s == 0 then x else 2 * ShiftLeft(x, s - 1)
  }

  /** Go's arithmetic `x >> s` on a signed integer: floor division by 2^s, one bit at a time. */
  function ShiftRight(x: int, s: nat): int
    decreases s
  {
    if s == 0 then x else ShiftRight(x / 2, s - 1)
  }

  /** AND of two single bits. */
  function AndBit(x: int, y: int): nat
  {
    if x == 1 && y == 1 then 1 else 0
  }

  /** XOR of two single bits. */
  function XorBit(x: int, y: int): nat
  {
    if x == y then 0 else 1
  }

  /** Two's complement `a & b` for any `a` and a non-negative mask `b`. */
  function And(a: int, b: nat): nat
    decreases b
  {
    if b == 0 then 0 else AndBit(a % 2, b % 2) + 2 * And(a / 2, b / 2)
  }

  /** `a ^ b` for non-negative operands. */
  function Xor(a: nat, b: nat): nat
    decreases a + b
  {
    if a == 0 && b == 0 then 0 else XorBit(a % 2, b % 2) + 2 * Xor(a / 2, b / 2)
  }

  /** Digit `j` of `x` in base 16; for a negative `x` this is the nibble of its two's complement. */
  function Nibble(x: int, j: nat): (d: nat)
    ensures d < 16
    decreases j
  {
    if j == 0 then x % 16 else Nibble(x / 16, j - 1)
  }

  // ---------------------------------------------------------------------
  // Division facts
  // ---------------------------------------------------------------------

  /** Euclidean division has exactly one quotient/remainder pair. */
  lemma DivModUnique(a: int, d: int, q: int, r: int)
    requires d > 0 && 0 <= r < d && a == d * q + r
    ensures a / d == q && a % d == r
  {
    var q0, r0 := a / d, a % d;
    assert a == d * q0 + r0;
    if q0 < q {
      assert d * (q - q0) == r0 - r;
      MulAtLeast(d, q - q0);
    } else if q < q0 {
      assert d * (q0 - q) == r - r0;
      MulAtLeast(d, q0 - q);
    }
  }

  lemma Distrib(w: int, a: int, b: int)
    ensures w * (a - b) == w * a - w * b
  {
  }

  lemma MulAtLeast(d: int, k: int)
    requires d > 0 && k >= 1
    ensures d * k >= d
  {
  }

  lemma MulMono(p: int, x: int, y: int)
    requires p >= 0 && x <= y
    ensures p * x <= p * y
  {
  }

  /** Shifting right by `4 * p` bits drops `p` nibbles; the low nibble left is nibble `p`. */
  lemma {:induction false} ShiftRightNibbles(x: int, p: nat)
    ensures ShiftRight(x, 4 * p) % 16 == Nibble(x, p)
    decreases p
  {
    if p > 0 {
      var s := 4 * (p - 1);
      assert ShiftRight(x, s + 4) == ShiftRight(x / 2, s + 3) == ShiftRight(x / 2 / 2, s + 2)
          == ShiftRight(x / 2 / 2 / 2, s + 1) == ShiftRight(x / 2 / 2 / 2 / 2, s);
      assert x / 2 / 2 / 2 / 2 == x / 16;
      ShiftRightNibbles(x / 16, p - 1);
    }
  }

  /** Shifting left by `4 * p` bits multiplies by 16^p. */
  lemma {:induction false} ShiftLeftNibbles(x: nat, p: nat)
    ensures ShiftLeft(x, 4 * p) == x * Pow16(p)
    decreases p
  {
    if p > 0 {
      var s := 4 * (p - 1);
      assert ShiftLeft(x, s + 4) == 2 * ShiftLeft(x, s + 3) == 4 * ShiftLeft(x, s + 2)
          == 8 * ShiftLeft(x, s + 1) == 16 * ShiftLeft(x, s);
      ShiftLeftNibbles(x, p - 1);
      assert x * Pow16(p) == 16 * (x * Pow16(p - 1));
    }
  }

  // ---------------------------------------------------------------------
  // AND
  // ---------------------------------------------------------------------

  /** The AND of anything with a mask is at most the mask. */
  lemma {:induction false} AndAtMostMask(a: int, b: nat)
    ensures And(a, b) <= b
    decreases b
  {
    if b != 0 {
      AndAtMostMask(a / 2, b / 2);
    }
  }

  /** The defining step of AND, also when the mask is already 0. */
  lemma AndStep(a: int, b: nat)
    ensures And(a, b) == AndBit(a % 2, b % 2) + 2 * And(a / 2, b / 2)
  {
  }

  /** The four bits of `x % 16` are the four low bits of `x`. */
  lemma LowNibbleBits(x: int)
    ensures x % 16 % 2 == x % 2 && x % 16 / 2 % 2 == x / 2 % 2
    ensures x % 16 / 4 % 2 == x / 4 % 2 && x % 16 / 8 % 2 == x / 8 % 2
    ensures x % 16 / 16 == 0
  {
    var q, m := x / 16, x % 16;
    DivModUnique(x, 2, 8 * q + m / 2, m % 2);
    DivModUnique(x, 4, 4 * q + m / 4, m % 4);
    DivModUnique(x, 8, 2 * q + m / 8, m % 8);
    DivModUnique(x / 2, 2, 4 * q + m / 4, m / 2 % 2);
    DivModUnique(x / 4, 2, 2 * q + m / 8, m / 4 % 2);
    DivModUnique(x / 8, 2, q, m / 8 % 2);
  }

  /** Four defining steps of AND at once. */
  lemma AndUnfold4(a: int, b: nat)
    ensures And(a, b) == AndBit(a % 2, b % 2) + 2 * AndBit(a / 2 % 2, b / 2 % 2)
                       + 4 * AndBit(a / 4 % 2, b / 4 % 2) + 8 * AndBit(a / 8 % 2, b / 8 % 2)
                       + 16 * And(a / 16, b / 16)
  {
    AndStep(a, b);
    assert a / 2 / 2 == a / 4 && b / 2 / 2 == b / 4;
    AndStep(a / 2, b / 2);
    assert a / 4 / 2 == a / 8 && b / 4 / 2 == b / 8;
    AndStep(a / 4, b / 4);
    assert a / 8 / 2 == a / 16 && b / 8 / 2 == b / 16;
    AndStep(a / 8, b / 8);
  }

  /** Splitting both operands at a nibble boundary splits their AND. */
  lemma AndNibbleSplit(a: int, b: nat)
    ensures And(a, b) == And(a % 16, b % 16) + 16 * And(a / 16, b / 16)
  {
    var am, bm := a % 16, b % 16;
    AndUnfold4(a, b);
    AndUnfold4(am, bm);
    LowNibbleBits(a);
    LowNibbleBits(b);
    assert And(am / 16, bm / 16) == 0;
  }

  /** AND with 2^k - 1 keeps the low k bits of a non-negative value below 2^k. */
  lemma {:induction false} AndAllOnes(y: nat, k: nat)
    requires y < Pow2(k)
    ensures And(y, Pow2(k) - 1) == y
    decreases k
  {
    if k > 0 {
      var p := Pow2(k - 1);
      assert (2 * p - 1) % 2 == 1 && (2 * p - 1) / 2 == p - 1;
      AndAllOnes(y / 2, k - 1);
    }
  }

  /** `x & 0xF` is `x` itself for a value that fits in a nibble. */
  lemma AndFifteenSmall(x: nat)
    requires x < 16
    ensures And(x, 15) == x
  {
    AndAllOnes(x, 4);
  }

  /** `x & 0xF` is the low nibble of `x`, for every integer `x`. */
  lemma AndLowNibble(x: int)
    ensures And(x, 15) == x % 16
  {
    AndNibbleSplit(x, 15);
    assert 15 % 16 == 15 && 15 / 16 == 0;
    assert And(x / 16, 0) == 0;
    AndFifteenSmall(x % 16);
  }

  /** Each nibble of an AND is the AND of the nibbles. */
  lemma {:induction false} NibbleOfAnd(a: int, b: nat, j: nat)
    ensures Nibble(And(a, b), j) == And(Nibble(a, j), Nibble(b, j))
    decreases j
  {
    AndNibbleSplit(a, b);
    var lo := And(a % 16, b % 16);
    var hi := And(a / 16, b / 16);
    AndAtMostMask(a % 16, b % 16);
    DivModUnique(And(a, b), 16, hi, lo);
    if j == 0 {
    } else {
      NibbleOfAnd(a / 16, b / 16, j - 1);
    }
  }

  // ---------------------------------------------------------------------
  // XOR
  // ---------------------------------------------------------------------

  lemma {:induction false} XorZeroLeft(b: nat)
    ensures Xor(0, b) == b
    decreases b
  {
    if b != 0 {
      XorZeroLeft(b / 2);
    }
  }

  lemma {:induction false} XorZeroRight(a: nat)
    ensures Xor(a, 0) == a
    decreases a
  {
    if a != 0 {
      XorZeroRight(a / 2);
    }
  }

  /** XOR never sets a bit at or above `k` when neither operand has one. */
  lemma {:induction false} XorBelow(a: nat, b: nat, k: nat)
    requires a < Pow2(k) && b < Pow2(k)
    ensures Xor(a, b) < Pow2(k)
    decreases k
  {
    if k > 0 && !(a == 0 && b == 0) {
      XorBelow(a / 2, b / 2, k - 1);
    }
  }

  /** The defining step of XOR, also when both operands are already 0. */
  lemma XorStep(a: nat, b: nat)
    ensures Xor(a, b) == XorBit(a % 2, b % 2) + 2 * Xor(a / 2, b / 2)
  {
  }

  /** Four defining steps of XOR at once. */
  lemma XorUnfold4(a: nat, b: nat)
    ensures Xor(a, b) == XorBit(a % 2, b % 2) + 2 * XorBit(a / 2 % 2, b / 2 % 2)
                       + 4 * XorBit(a / 4 % 2, b / 4 % 2) + 8 * XorBit(a / 8 % 2, b / 8 % 2)
                       + 16 * Xor(a / 16, b / 16)
  {
    XorStep(a, b);
    assert a / 2 / 2 == a / 4 && b / 2 / 2 == b / 4;
    XorStep(a / 2, b / 2);
    assert a / 4 / 2 == a / 8 && b / 4 / 2 == b / 8;
    XorStep(a / 4, b / 4);
    assert a / 8 / 2 == a / 16 && b / 8 / 2 == b / 16;
    XorStep(a / 8, b / 8);
  }

  /** Splitting both operands at a nibble boundary splits their XOR. */
  lemma XorNibbleSplit(a: nat, b: nat)
    ensures Xor(a, b) == Xor(a % 16, b % 16) + 16 * Xor(a / 16, b / 16)
  {
    var am, bm := a % 16, b % 16;
    XorUnfold4(a, b);
    XorUnfold4(am, bm);
    LowNibbleBits(a);
    LowNibbleBits(b);
    assert Xor(am / 16, bm / 16) == 0;
  }

  /** Each nibble of an XOR is the XOR of the nibbles. */
  lemma {:induction false} NibbleOfXor(a: nat, b: nat, j: nat)
    ensures Nibble(Xor(a, b), j) == Xor(Nibble(a, j), Nibble(b, j))
    decreases j
  {
    XorNibbleSplit(a, b);
    var lo := Xor(a % 16, b % 16);
    var hi := Xor(a / 16, b / 16);
    XorBelow(a % 16, b % 16, 4);
    DivModUnique(Xor(a, b), 16, hi, lo);
    if j > 0 {
      NibbleOfXor(a / 16, b / 16, j - 1);
    }
  }

  // ---------------------------------------------------------------------
  // Nibbles of shifted values, and equality by nibbles
  // ---------------------------------------------------------------------

  /** A nibble-sized value shifted left by `4 * p` bits occupies nibble `p` alone. */
  lemma {:induction false} NibbleOfShifted(t: nat, p: nat, j: nat)
    requires t < 16
    ensures Nibble(t * Pow16(p), j) == if j == p then t else 0
    decreases j
  {
    if p > 0 {
      assert t * Pow16(p) == 16 * (t * Pow16(p - 1));
      if j > 0 {
        NibbleOfShifted(t, p - 1, j - 1);
      }
    } else if j > 0 {
      assert Nibble(0, j - 1) == 0 by { NibbleOfZero(j - 1); }
    }
  }

  lemma {:induction false} NibbleOfZero(j: nat)
    ensures Nibble(0, j) == 0
  {
    if j > 0 {
      NibbleOfZero(j - 1);
    }
  }

  /** XOR of two values below 16^k is below 16^k. */
  lemma {:induction false} XorBelowNibbles(a: nat, b: nat, k: nat)
    requires a < Pow16(k) && b < Pow16(k)
    ensures Xor(a, b) < Pow16(k)
    decreases k
  {
    XorNibbleSplit(a, b);
    XorBelow(a % 16, b % 16, 4);
    if k > 0 {
      XorBelowNibbles(a / 16, b / 16, k - 1);
    } else {
      assert a == 0 && b == 0;
    }
  }

  /** Two non-negative values below 16^k with the same k low nibbles are equal. */
  lemma {:induction false} EqualByNibbles(x: nat, y: nat, k: nat)
    requires x < Pow16(k) && y < Pow16(k)
    requires forall j :: 0 <= j < k ==> Nibble(x, j) == Nibble(y, j)
    ensures x == y
    decreases k
  {
    if k > 0 {
      assert Nibble(x, 0) == Nibble(y, 0);
      forall j | 0 <= j < k - 1
        ensures Nibble(x / 16, j) == Nibble(y / 16, j)
      {
        assert Nibble(x, j + 1) == Nibble(y, j + 1);
      }
      EqualByNibbles(x / 16, y / 16, k - 1);
    }
  }
}

=== FILE: codec.dfy ===
/**
 * The trait codec: a culture is an integer whose six low nibbles are its six
 * traits, each in [0, 15]. `Extract` reads one trait with a shift and a 0xF
 * mask; `Replace` clears one slot with a precomputed mask and XORs the new
 * trait into it.
 */
module Codec {
  import opened Bits

  /** Number of trait slots in a culture. */
  const TraitCount: nat := 6

  /** Largest culture value: all six traits at 15. Also the "empty cell" value written by Init. */
  const MaxCulture: nat := 0xFFFFFF

  /** The mask that keeps the low four bits. */
  const NibbleMask: nat := 0xF

  /** One clearing mask per slot: all 24 bits set except the four bits of that slot. */
  const MaskArray: seq<nat> := [0xFFFFF0, 0xFFFF0F, 0xFFF0FF, 0xFF0FFF, 0xF0FFFF, 0x0FFFFF]

  /** A culture value as stored in a grid cell: it fits in the 24 bits of six traits. */
  predicate IsCulture(v: int)
  {
    0 <= v <= MaxCulture
  }

  /**
   * `extract`: the trait at slot `pos`, i.e. base-16 digit `pos` of `n` (of
   * its two's complement, if negative), for any integer and any slot. The
   * program computes it as `(n >> (4 * pos)) & 0xF`; `ExtractIsShiftAndMask`
   * proves the two agree on every input.
   */
  function Extract(n: int, pos: nat): (t: nat)
    ensures t < 16
  {
    Nibble(n, pos)
  }

  /** The program's shift-and-mask reads exactly the trait `Extract` defines. */
  lemma ExtractIsShiftAndMask(n: int, pos: nat)
    ensures And(ShiftRight(n, 4 * pos), NibbleMask) == Extract(n, pos)
  {
    ShiftRightNibbles(n, pos);
    AndLowNibble(ShiftRight(n, 4 * pos));
  }

  /**
   * `(n & MASKARRAY[pos]) ^ (replacement << (4 * pos))`. Indexing the mask
   * table with a slot outside [0, 5] is out of range, hence the precondition.
   * For a replacement that fits in a nibble, the result holds the new trait in
   * slot `pos`, keeps every other slot of `n` (of its two's complement, if `n`
   * is negative), and is a culture value whatever `n` was: the mask clears all
   * bits from 24 upwards.
   */
  function Replace(n: int, replacement: nat, pos: nat): (r: nat)
    requires pos < |MaskArray|
    ensures replacement < 16 ==> IsCulture(r)
    ensures replacement < 16 ==> Extract(r, pos) == replacement
    ensures replacement < 16 ==>
              forall j :: 0 <= j < TraitCount && j != pos ==> Extract(r, j) == Extract(n, j)
  {
    if replacement < 16 then
      ReplaceTraits(n, replacement, pos);
      ReplaceBelow(n, replacement, pos);
      Xor(And(n, MaskArray[pos]), ShiftLeft(replacement, 4 * pos))
    else
      Xor(And(n, MaskArray[pos]), ShiftLeft(replacement, 4 * pos))
  }

  lemma Pow16Values()
    ensures Pow16(1) == 0x10 && Pow16(2) == 0x100 && Pow16(3) == 0x1000
    ensures Pow16(4) == 0x10000 && Pow16(5) == 0x100000 && Pow16(6) == 0x1000000
  {
  }

  /** Each mask has nibble 0 at its own slot and nibble 0xF at the five others. */
  lemma MaskNibble(p: nat, j: nat)
    requires p < |MaskArray| && j < TraitCount
    ensures Nibble(MaskArray[p], j) == if j == p then 0 else 15
  {
    if p == 0 {
      MaskNibbles0();
    } else if p == 1 {
      MaskNibbles1();
    } else if p == 2 {
      MaskNibbles2();
    } else if p == 3 {
      MaskNibbles3();
    } else if p == 4 {
      MaskNibbles4();
    } else {
      MaskNibbles5();
    }
  }

  lemma MaskNibbles0()
    ensures Nibble(0xFFFFF0, 0) == 0 && Nibble(0xFFFFF0, 1) == 15 && Nibble(0xFFFFF0, 2) == 15
    ensures Nibble(0xFFFFF0, 3) == 15 && Nibble(0xFFFFF0, 4) == 15 && Nibble(0xFFFFF0, 5) == 15
  {
  }

  lemma MaskNibbles1()
    ensures Nibble(0xFFFF0F, 0) == 15 && Nibble(0xFFFF0F, 1) == 0 && Nibble(0xFFFF0F, 2) == 15
    ensures Nibble(0xFFFF0F, 3) == 15 && Nibble(0xFFFF0F, 4) == 15 && Nibble(0xFFFF0F, 5) == 15
  {
  }

  lemma MaskNibbles2()
    ensures Nibble(0xFFF0FF, 0) == 15 && Nibble(0xFFF0FF, 1) == 15 && Nibble(0xFFF0FF, 2) == 0
    ensures Nibble(0xFFF0FF, 3) == 15 && Nibble(0xFFF0FF, 4) == 15 && Nibble(0xFFF0FF, 5) == 15
  {
  }

  lemma MaskNibbles3()
    ensures Nibble(0xFF0FFF, 0) == 15 && Nibble(0xFF0FFF, 1) == 15 && Nibble(0xFF0FFF, 2) == 15
    ensures Nibble(0xFF0FFF, 3) == 0 && Nibble(0xFF0FFF, 4) == 15 && Nibble(0xFF0FFF, 5) == 15
  {
  }

  lemma MaskNibbles4()
    ensures Nibble(0xF0FFFF, 0) == 15 && Nibble(0xF0FFFF, 1) == 15 && Nibble(0xF0FFFF, 2) == 15
    ensures Nibble(0xF0FFFF, 3) == 15 && Nibble(0xF0FFFF, 4) == 0 && Nibble(0xF0FFFF, 5) == 15
  {
  }

  lemma MaskNibbles5()
    ensures Nibble(0x0FFFFF, 0) == 15 && Nibble(0x0FFFFF, 1) == 15 && Nibble(0x0FFFFF, 2) == 15
    ensures Nibble(0x0FFFFF, 3) == 15 && Nibble(0x0FFFFF, 4) == 15 && Nibble(0x0FFFFF, 5) == 0
  {
  }

  /** Nibble `j` of the raw replace expression. */
  lemma ReplaceNibble(n: int, t: nat, pos: nat, j: nat)
    requires pos < |MaskArray| && t < 16 && j < TraitCount
    ensures Nibble(Xor(And(n, MaskArray[pos]), ShiftLeft(t, 4 * pos)), j) == if j == pos then t else Nibble(n, j)
  {
    var m := MaskArray[pos];
    var d := Nibble(n, j);
    var cleared := And(n, m);
    var shifted := ShiftLeft(t, 4 * pos);
    assert shifted == t * Pow16(pos) by { ShiftLeftNibbles(t, pos); }
    NibbleOfXor(cleared, shifted, j);
    NibbleOfAnd(n, m, j);
    NibbleOfShifted(t, pos, j);
    MaskNibble(pos, j);
    if j == pos {
      assert Nibble(cleared, j) == And(d, 0) == 0;
      assert Nibble(shifted, j) == t;
      XorZeroLeft(t);
      assert Nibble(Xor(cleared, shifted), j) == Xor(0, t) == t;
    } else {
      assert Nibble(cleared, j) == And(d, 15);
      assert Nibble(shifted, j) == 0;
      AndFifteenSmall(d);
      XorZeroRight(And(d, 15));
      assert Nibble(Xor(cleared, shifted), j) == Xor(And(d, 15), 0) == d;
    }
  }

  /** The traits of the raw replace expression, slot by slot. */
  lemma ReplaceTraits(n: int, t: nat, pos: nat)
    requires pos < |MaskArray| && t < 16
    ensures forall j :: 0 <= j < TraitCount ==>
              Extract(Xor(And(n, MaskArray[pos]), ShiftLeft(t, 4 * pos)), j) == if j == pos then t else Extract(n, j)
  {
    var r := Xor(And(n, MaskArray[pos]), ShiftLeft(t, 4 * pos));
    forall j | 0 <= j < TraitCount
      ensures Extract(r, j) == if j == pos then t else Extract(n, j)
    {
      ReplaceNibble(n, t, pos, j);
    }
  }

  /** The raw replace expression stays below 2^24. */
  lemma ReplaceBelow(n: int, t: nat, pos: nat)
    requires pos < |MaskArray| && t < 16
    ensures Xor(And(n, MaskArray[pos]), ShiftLeft(t, 4 * pos)) <= MaxCulture
  {
    Pow16Values();
    AndAtMostMask(n, MaskArray[pos]);
    ShiftLeftNibbles(t, pos);
    assert t * Pow16(pos) < 0x1000000 by {
      assert Pow16(pos) <= Pow16(5) by { Pow16Mono(pos, 5); }
      MulMono(t, Pow16(pos), Pow16(5));
    }
    XorBelowNibbles(And(n, MaskArray[pos]), ShiftLeft(t, 4 * pos), 6);
  }

  lemma {:induction false} Pow16Mono(i: nat, k: nat)
    requires i <= k
    ensures Pow16(i) <= Pow16(k)
    decreases k
  {
    if i < k {
      Pow16Mono(i, k - 1);
    }
  }

  /** Two culture values with the same six traits are the same value. */
  lemma EqualByTraits(x: int, y: int)
    requires IsCulture(x) && IsCulture(y)
    requires forall j :: 0 <= j < TraitCount ==> Extract(x, j) == Extract(y, j)
    ensures x == y
  {
    forall j | 0 <= j < 6
      ensures Nibble(x, j) == Nibble(y, j)
    {
      assert Extract(x, j) == Extract(y, j);
    }
    Pow16Values();
    EqualByNibbles(x, y, 6);
  }

  /** Writing a slot's own trait back into it leaves a culture value unchanged. */
  lemma ReplaceOwnTrait(v: int, s: nat)
    requires IsCulture(v) && s < TraitCount
    ensures Replace(v, Extract(v, s), s) == v
  {
    EqualByTraits(Replace(v, Extract(v, s), s), v);
  }

  /** A second write to the same slot overrides the first, for any integer. */
  lemma ReplaceTwice(v: int, t1: nat, t2: nat, s: nat)
    requires s < TraitCount && t1 < 16 && t2 < 16
    ensures Replace(Replace(v, t1, s), t2, s) == Replace(v, t2, s)
  {
    EqualByTraits(Replace(Replace(v, t1, s), t2, s), Replace(v, t2, s));
  }

  /** Writes to two different slots commute. */
  lemma ReplaceCommutes(v: int, t1: nat, s1: nat, t2: nat, s2: nat)
    requires s1 < TraitCount && s2 < TraitCount && s1 != s2 && t1 < 16 && t2 < 16
    ensures Replace(Replace(v, t1, s1), t2, s2) == Replace(Replace(v, t2, s2), t1, s1)
  {
    EqualByTraits(Replace(Replace(v, t1, s1), t2, s2), Replace(Replace(v, t2, s2), t1, s1));
  }
}

=== FILE: exchange.dfy ===
/**
 * The diffusion rule: one sampled cell meets each of its non-empty neighbours
 * in turn and, when the random draws allow it, one trait is copied between
 * them. Randomness is not modelled; every draw the program makes is an
 * explicit input.
 */
module Exchange {
  import opened Codec
  import opened Metrics

  /**
   * The random outcomes consumed while visiting one neighbour:
   * `accepted` is whether `dp < 1 - d/96` held, `slot` is `rand.Intn(6)` and
   * `direction` is `rand.Intn(1)`.
   */
  datatype Draw = Draw(accepted: bool, slot: nat, direction: nat)

  /** The draws `rand.Intn(6)` and `rand.Intn(1)` can produce; the second is always 0. */
  predicate InDrawRange(d: Draw)
  {
    d.slot < TraitCount && d.direction < 1
  }

  /** One sampled interaction: the cell `rand.Intn(width * width)` picked, and the draws for each of its neighbours. */
  datatype Sample = Sample(cell: nat, draws: seq<Draw>)

  /** A sample fits a grid of `n` cells: its cell exists and it has one in-range draw per neighbour. */
  predicate ValidSample(n: nat, topo: Topology, s: Sample)
  {
    && |topo| == n
    && s.cell < n
    && |s.draws| == |topo[s.cell]|
    && forall k :: 0 <= k < |s.draws| ==> InDrawRange(s.draws[k])
  }

  /** The grid after an exchange, and the running count of exchanges (`chg`). */
  datatype Step = Step(units: seq<int>, changes: int)

  /** Every cell holds a culture value. */
  predicate AllCultures(units: seq<int>)
  {
    forall k :: 0 <= k < |units| ==> IsCulture(units[k])
  }

  /**
   * The exchange between the sampled cell `r` and its neighbour `nb`. When
   * the draw is accepted and the two differ on slots 0..4, the neighbour is
   * overwritten and the count goes up by one; nothing else happens otherwise.
   * Both branches of the direction choice write to the neighbour: with
   * direction 0 it takes `r`'s trait at the drawn slot, otherwise it becomes
   * `r`'s culture with its own trait at that slot. The sampled cell never
   * changes: if it lists itself, the difference is 0.
   */
  function ExchangeStep(units: seq<int>, r: nat, nb: nat, draw: Draw, chg: int): (s: Step)
    requires r < |units| && nb < |units| && draw.slot < TraitCount
    ensures |s.units| == |units|
    ensures forall k :: 0 <= k < |units| && k != nb ==> s.units[k] == units[k]
    ensures s.changes == chg + 1 <==> draw.accepted && !AgreeBelow(units[r], units[nb], ComparedSlots)
    ensures s.changes == chg || s.changes == chg + 1
    ensures s.changes == chg ==> s.units == units
    ensures s.changes == chg + 1 ==> IsCulture(s.units[nb])
    ensures s.changes == chg + 1 && draw.direction == 0 ==>
              && Extract(s.units[nb], draw.slot) == Extract(units[r], draw.slot)
              && forall j :: 0 <= j < TraitCount && j != draw.slot ==> Extract(s.units[nb], j) == Extract(units[nb], j)
    ensures s.changes == chg + 1 && draw.direction != 0 ==>
              && Extract(s.units[nb], draw.slot) == Extract(units[nb], draw.slot)
              && forall j :: 0 <= j < TraitCount && j != draw.slot ==> Extract(s.units[nb], j) == Extract(units[r], j)
  {
    var d := Diff(units, r, nb);
    if draw.accepted && d != 0 then
      var i := draw.slot;
      var rp :=
        if draw.direction == 0 then Replace(units[nb], Extract(units[r], i), i)
        else Replace(units[r], Extract(units[nb], i), i);
      Step(units[nb := rp], chg + 1)
    else
      Step(units, chg)
  }

  /**
   * With the only direction `rand.Intn(1)` returns, an accepted exchange
   * between differing cultures copies `r`'s trait at the drawn slot into the
   * neighbour, which otherwise keeps its value; `r` keeps its own.
   */
  lemma ExchangeCopiesIntoNeighbour(units: seq<int>, r: nat, nb: nat, draw: Draw, chg: int)
    requires r < |units| && nb < |units| && InDrawRange(draw) && IsCulture(units[nb])
    requires draw.accepted && CultureDiff(units[r], units[nb]) != 0
    ensures r != nb
    ensures ExchangeStep(units, r, nb, draw, chg).units[nb] == Replace(units[nb], Extract(units[r], draw.slot), draw.slot)
    ensures ExchangeStep(units, r, nb, draw, chg).units[r] == units[r]
    ensures ExchangeStep(units, r, nb, draw, chg).units[nb] == units[nb] <==> Extract(units[nb], draw.slot) == Extract(units[r], draw.slot)
  {
    var s := ExchangeStep(units, r, nb, draw, chg);
    var t := Extract(units[r], draw.slot);
    if Extract(units[nb], draw.slot) == t {
      ReplaceOwnTrait(units[nb], draw.slot);
    }
  }

  /** When the compared slots agree, no draw changes anything. */
  lemma IdenticalCulturesDoNotExchange(units: seq<int>, r: nat, nb: nat, draw: Draw, chg: int)
    requires r < |units| && nb < |units| && draw.slot < TraitCount
    requires CultureDiff(units[r], units[nb]) == 0
    ensures ExchangeStep(units, r, nb, draw, chg) == Step(units, chg)
  {
  }

  /**
   * An exchange is counted even when it rewrites the neighbour with the trait
   * it already has: here the cultures differ only in slot 0, slot 3 is drawn,
   * and the count goes up while the grid stays the same.
   */
  lemma CountedExchangeWithoutChange()
    ensures ExchangeStep([0x000001, 0x000002], 0, 1, Draw(true, 3, 0), 0) == Step([0x000001, 0x000002], 1)
  {
    var units := [0x000001, 0x000002];
    assert Extract(1, 0) == 1;
    assert Extract(2, 0) == 2;
    assert !AgreeBelow(units[0], units[1], ComparedSlots);
    assert Extract(1, 3) == 0;
    assert Extract(2, 3) == 0;
    assert Replace(2, Extract(1, 3), 3) == 2 by { ReplaceOwnTrait(2, 3); }
    assert units[1 := 2] == units;
  }

  /** No draw in the list passed the acceptance test. */
  predicate NoneAccepted(draws: seq<Draw>)
  {
    forall k :: 0 <= k < |draws| ==> !draws[k].accepted
  }

  /**
   * The loop over the sampled cell's neighbours: each non-empty neighbour, in
   * list order, goes through `ExchangeStep` against the grid the previous
   * neighbour left. Only listed neighbours can change, the count rises by at
   * most one per neighbour, and everything written is a culture value.
   */
  function VisitNeighbours(units: seq<int>, r: nat, nbrs: seq<nat>, draws: seq<Draw>, chg: int): (s: Step)
    requires r < |units| && InGrid(|units|, nbrs) && |draws| == |nbrs|
    requires forall k :: 0 <= k < |draws| ==> draws[k].slot < TraitCount
    ensures |s.units| == |units|
    ensures forall k :: 0 <= k < |units| && k !in nbrs ==> s.units[k] == units[k]
    ensures s.units[r] == units[r]
    ensures chg <= s.changes <= chg + |nbrs|
    ensures s.changes == chg ==> s.units == units
    ensures AllCultures(units) ==> AllCultures(s.units)
    ensures NoneAccepted(draws) ==> s == Step(units, chg)
    decreases |nbrs|
  {
    if |nbrs| == 0 then
      Step(units, chg)
    else
      var nb := nbrs[0];
      var s1 := if units[nb] != EmptyValue then ExchangeStep(units, r, nb, draws[0], chg) else Step(units, chg);
      var s := VisitNeighbours(s1.units, r, nbrs[1..], draws[1..], s1.changes);
      assert forall k :: 0 <= k < |units| && k !in nbrs ==> k !in nbrs[1..] && k != nb;
      assert NoneAccepted(draws) ==> !draws[0].accepted && NoneAccepted(draws[1..]);
      s
  }

  /**
   * One sampled interaction: nothing happens when the sampled cell holds the
   * value 0; otherwise its neighbours are visited in order.
   */
  function Interaction(units: seq<int>, topo: Topology, sample: Sample, chg: int): (s: Step)
    requires ValidTopology(units, topo) && ValidSample(|units|, topo, sample)
    ensures |s.units| == |units|
    ensures units[sample.cell] == EmptyValue ==> s == Step(units, chg)
    ensures forall k :: 0 <= k < |units| && k !in topo[sample.cell] ==> s.units[k] == units[k]
    ensures s.units[sample.cell] == units[sample.cell]
    ensures chg <= s.changes <= chg + |topo[sample.cell]|
    ensures AllCultures(units) ==> AllCultures(s.units)
    ensures NoneAccepted(sample.draws) ==> s == Step(units, chg)
  {
    var r := sample.cell;
    if units[r] != EmptyValue then
      VisitNeighbours(units, r, topo[r], sample.draws, chg)
    else
      Step(units, chg)
  }

  /** The grid, the exchange count and the last metrics after a tick's interactions. */
  datatype TickResult = TickResult(units: seq<int>, changes: int, dist: int, uniq: int)

  /** Every sample fits a grid of `n` cells. */
  predicate ValidSamples(n: nat, topo: Topology, samples: seq<Sample>)
  {
    forall k :: 0 <= k < |samples| ==> ValidSample(n, topo, samples[k])
  }

  /** The number of neighbour visits the samples make: the most exchanges they can count. */
  function Visits(topo: Topology, samples: seq<Sample>): nat
    requires forall k :: 0 <= k < |samples| ==> samples[k].cell < |topo|
    decreases |samples|
  {
    if |samples| == 0 then 0 else |topo[samples[0].cell]| + Visits(topo, samples[1..])
  }

  /** No draw of any sample passed the acceptance test. */
  predicate NoAcceptedDraw(samples: seq<Sample>)
  {
    forall k :: 0 <= k < |samples| ==> NoneAccepted(samples[k].draws)
  }

  /** No sample of the tick lists cell `k` among its neighbours, so no exchange can write it. */
  predicate Unreached(topo: Topology, samples: seq<Sample>, k: nat)
    requires forall j :: 0 <= j < |samples| ==> samples[j].cell < |topo|
  {
    forall j :: 0 <= j < |samples| ==> k !in topo[samples[j].cell]
  }

  /**
   * The interaction loop of a tick. After every sample the program
   * recomputes the average feature distance and the number of distinct
   * cultures over the whole grid; only the values after the last sample
   * survive, so they are the metrics of the final grid. With no samples the
   * incoming values are kept. Only neighbours of sampled cells can change.
   * The count rises by at most one per neighbour visit, and not at all, with
   * the grid untouched, when no draw is accepted.
   */
  function RunSamples(units: seq<int>, topo: Topology, width: int, samples: seq<Sample>,
                      chg: int, dist: int, uniq: int): (r: TickResult)
    requires ValidTopology(units, topo) && width > 0 && ValidSamples(|units|, topo, samples)
    ensures |r.units| == |units|
    ensures forall k :: 0 <= k < |units| && Unreached(topo, samples, k) ==> r.units[k] == units[k]
    ensures chg <= r.changes <= chg + Visits(topo, samples)
    ensures NoAcceptedDraw(samples) ==> r.changes == chg && r.units == units
    ensures |samples| == 0 ==> r == TickResult(units, chg, dist, uniq)
    ensures |samples| > 0 ==> r.dist == FeatureDistAvg(r.units, topo, width) && r.uniq == SimilarCount(r.units)
    ensures AllCultures(units) ==> AllCultures(r.units)
    decreases |samples|
  {
    if |samples| == 0 then
      TickResult(units, chg, dist, uniq)
    else
      var s := Interaction(units, topo, samples[0], chg);
      assert NoAcceptedDraw(samples) ==> NoneAccepted(samples[0].draws) && NoAcceptedDraw(samples[1..]);
      assert forall k :: 0 <= k < |units| && Unreached(topo, samples, k) ==>
               k !in topo[samples[0].cell] && Unreached(topo, samples[1..], k);
      RunSamples(s.units, topo, width, samples[1..], s.changes,
                 FeatureDistAvg(s.units, topo, width), SimilarCount(s.units))
  }
}

=== FILE: metrics.dfy ===
/**
 * Distance and diversity metrics over culture values and over the grid.
 *
 * The grid is the sequence of the cells' culture values, indexed by grid
 * position; the topology collaborator is a table giving, for every cell, the
 * list of its neighbours' positions. `featureDistAvg` skips only neighbours
 * whose value is 0 (the comparison the program makes, not the all-15 value
 * Init writes into uncovered cells); a centre cell holding 0 is still
 * counted, and `similarCount` counts 0 like any other value.
 */
module Metrics {
  import opened Bits
  import opened Codec

  /** Number of leading slots that `diff` and `featureDistance` compare. */
  const ComparedSlots: nat := 5

  /** The value the program treats as "no culture here". */
  const EmptyValue: int := 0

  /** Grid positions of every cell's neighbours, one list per cell. */
  type Topology = seq<seq<nat>>

  /** Every listed neighbour is a cell of a grid of `n` cells. */
  predicate InGrid(n: nat, nbrs: seq<nat>)
  {
    forall k :: 0 <= k < |nbrs| ==> nbrs[k] < n
  }

  /** The topology has one neighbour list per cell, and every listed neighbour is a cell. */
  predicate ValidTopology(units: seq<int>, topo: Topology)
  {
    && |topo| == |units|
    && forall c :: 0 <= c < |topo| ==> InGrid(|units|, topo[c])
  }

  /** Whether two cultures carry the same trait in every slot below `k`. */
  predicate AgreeBelow(c1: int, c2: int, k: nat)
  {
    forall i :: 0 <= i < k ==> Extract(c1, i) == Extract(c2, i)
  }

  // ---------------------------------------------------------------------
  // Pairwise distances
  // ---------------------------------------------------------------------

  /** `traitDistance`: how far apart two cultures are at one slot. */
  function TraitDistance(n1: int, n2: int, pos: nat): (d: nat)
    ensures d <= 15
    ensures d == 0 <==> Extract(n1, pos) == Extract(n2, pos)
  {
    var diff := Extract(n1, pos) - Extract(n2, pos);
    if diff < 0 then diff * -1 else diff
  }

  lemma TraitDistanceSymmetric(n1: int, n2: int, pos: nat)
    ensures TraitDistance(n1, n2, pos) == TraitDistance(n2, n1, pos)
  {
  }

  /** Sum of the trait distances over the slots below `k`. */
  function DiffBelow(c1: int, c2: int, k: nat): (d: nat)
    ensures d <= 15 * k
  {
    if k == 0 then 0 else DiffBelow(c1, c2, k - 1) + TraitDistance(c1, c2, k - 1)
  }

  /** Agreement below `k + 1` is agreement below `k` plus agreement at slot `k`. */
  lemma AgreeBelowStep(c1: int, c2: int, k: nat)
    ensures AgreeBelow(c1, c2, k + 1) <==> AgreeBelow(c1, c2, k) && Extract(c1, k) == Extract(c2, k)
  {
  }

  /** The summed difference is 0 exactly when the slots below `k` agree. */
  lemma {:induction false} DiffBelowZeroIffAgree(c1: int, c2: int, k: nat)
    ensures DiffBelow(c1, c2, k) == 0 <==> AgreeBelow(c1, c2, k)
  {
    if k > 0 {
      DiffBelowZeroIffAgree(c1, c2, k - 1);
      AgreeBelowStep(c1, c2, k - 1);
      assert DiffBelow(c1, c2, k) == DiffBelow(c1, c2, k - 1) + TraitDistance(c1, c2, k - 1);
    }
  }

  /**
   * `diff`: the cultural difference that drives the exchange probability. It
   * sums slots 0..4 only; slot 5 never contributes.
   */
  function CultureDiff(c1: int, c2: int): (d: nat)
    ensures d <= 75
    ensures d == 0 <==> AgreeBelow(c1, c2, ComparedSlots)
  {
    DiffBelowZeroIffAgree(c1, c2, ComparedSlots);
    DiffBelow(c1, c2, ComparedSlots)
  }

  /** `diff(a1, a2)` reads the two cells' cultures from the grid. */
  function Diff(units: seq<int>, a1: nat, a2: nat): (d: nat)
    requires a1 < |units| && a2 < |units|
    ensures d <= 75
    ensures d == 0 <==> AgreeBelow(units[a1], units[a2], ComparedSlots)
    ensures a1 == a2 ==> d == 0
  {
    CultureDiff(units[a1], units[a2])
  }

  lemma {:induction false} DiffBelowSymmetric(c1: int, c2: int, k: nat)
    ensures DiffBelow(c1, c2, k) == DiffBelow(c2, c1, k)
  {
    if k == 0 {
      assert DiffBelow(c1, c2, k) == 0;
      assert DiffBelow(c2, c1, k) == 0;
    } else {
      DiffBelowSymmetric(c1, c2, k - 1);
      TraitDistanceSymmetric(c1, c2, k - 1);
      assert DiffBelow(c1, c2, k) == DiffBelow(c1, c2, k - 1) + TraitDistance(c1, c2, k - 1);
      assert DiffBelow(c2, c1, k) == DiffBelow(c2, c1, k - 1) + TraitDistance(c2, c1, k - 1);
    }
  }

  lemma CultureDiffSymmetric(c1: int, c2: int)
    ensures CultureDiff(c1, c2) == CultureDiff(c2, c1)
  {
    DiffBelowSymmetric(c1, c2, ComparedSlots);
  }

  /** The summed difference only looks at the slots below `k`. */
  lemma {:induction false} DiffBelowOnlyLowSlots(c1: int, c1': int, c2: int, k: nat)
    requires AgreeBelow(c1, c1', k)
    ensures DiffBelow(c1', c2, k) == DiffBelow(c1, c2, k)
  {
    if k == 0 {
      assert DiffBelow(c1', c2, 0) == 0 == DiffBelow(c1, c2, 0);
    } else {
      DiffBelowOnlyLowSlots(c1, c1', c2, k - 1);
      assert Extract(c1, k - 1) == Extract(c1', k - 1);
    }
  }

  /** The difference ignores the last slot: rewriting slot 5 never changes it. */
  lemma CultureDiffIgnoresLastSlot(c1: int, c2: int, t: nat)
    requires t < 16
    ensures CultureDiff(Replace(c1, t, 5), c2) == CultureDiff(c1, c2)
  {
    var c1' := Replace(c1, t, 5);
    assert AgreeBelow(c1, c1', ComparedSlots);
    DiffBelowOnlyLowSlots(c1, c1', c2, ComparedSlots);
  }

  /** `1 - d/96`, the probability that an exchange is attempted. */
  function ExchangeProbability(d: nat): real
  {
    1.0 - (d as real) / 96.0
  }

  /**
   * For any two cultures the exchange probability is a probability; it is 1
   * exactly when the compared slots agree, and never reaches 0, because the
   * difference is at most 75.
   */
  lemma ExchangeProbabilityBounds(c1: int, c2: int)
    ensures 21.0 / 96.0 <= ExchangeProbability(CultureDiff(c1, c2)) <= 1.0
    ensures ExchangeProbability(CultureDiff(c1, c2)) == 1.0 <==> AgreeBelow(c1, c2, ComparedSlots)
  {
  }

  /** Number of slots below `k` where the two cultures agree. */
  function MatchesBelow(n1: int, n2: int, k: nat): (m: nat)
    ensures m <= k
    ensures m == k <==> AgreeBelow(n1, n2, k)
    ensures m + |DifferingSlots(n1, n2, k)| == k
  {
    if k == 0 then
      assert DifferingSlots(n1, n2, 0) == {};
      0
    else
      assert DifferingSlots(n1, n2, k) ==
             DifferingSlots(n1, n2, k - 1) + (if Extract(n1, k - 1) != Extract(n2, k - 1) then {k - 1} else {});
      AgreeBelowStep(n1, n2, k - 1);
      MatchesBelow(n1, n2, k - 1) + (if Extract(n1, k - 1) == Extract(n2, k - 1) then 1 else 0)
  }

  /** The slots below `k` where the two cultures differ. */
  function DifferingSlots(n1: int, n2: int, k: nat): set<nat>
  {
    set i: nat | i < k && Extract(n1, i) != Extract(n2, i)
  }

  /**
   * `featureDistance`: six minus the number of agreeing slots among 0..4.
   * Only five slots are counted, so the result is one more than the number
   * of differing slots: 1 for two cultures that agree on slots 0..4, and
   * never 0.
   */
  function FeatureDistance(n1: int, n2: int): (f: int)
    ensures 1 <= f <= 6
    ensures f == 1 + |DifferingSlots(n1, n2, ComparedSlots)|
    ensures f == 1 <==> AgreeBelow(n1, n2, ComparedSlots)
  {
    6 - MatchesBelow(n1, n2, ComparedSlots)
  }

  lemma FeatureDistanceSymmetric(n1: int, n2: int)
    ensures FeatureDistance(n1, n2) == FeatureDistance(n2, n1)
  {
    assert DifferingSlots(n1, n2, ComparedSlots) == DifferingSlots(n2, n1, ComparedSlots);
  }

  // ---------------------------------------------------------------------
  // Grid-wide average feature distance
  // ---------------------------------------------------------------------

  /** Whether neighbour `nb` of a cell contributes to the average: it is not empty. */
  predicate Counted(units: seq<int>, nb: nat)
    requires nb < |units|
  {
    units[nb] != EmptyValue
  }

  /** Feature distances from cell `c` to the non-empty neighbours in `nbrs`. */
  function NeighbourSum(units: seq<int>, c: nat, nbrs: seq<nat>): (s: nat)
    requires c < |units|
    requires InGrid(|units|, nbrs)
    ensures NeighbourCount(units, nbrs) <= s <= 6 * NeighbourCount(units, nbrs)
  {
    if |nbrs| == 0 then 0
    else
      var nb := nbrs[|nbrs| - 1];
      NeighbourSum(units, c, nbrs[..|nbrs| - 1]) + (if Counted(units, nb) then FeatureDistance(units[c], units[nb]) else 0)
  }

  /** How many of `nbrs` are not empty (the program's `count`). */
  function NeighbourCount(units: seq<int>, nbrs: seq<nat>): (n: nat)
    requires InGrid(|units|, nbrs)
    ensures n <= |nbrs|
  {
    if |nbrs| == 0 then 0
    else NeighbourCount(units, nbrs[..|nbrs| - 1]) + (if Counted(units, nbrs[|nbrs| - 1]) then 1 else 0)
  }

  /** Sum of `NeighbourSum` over the cells below `n`. */
  function GridSum(units: seq<int>, topo: Topology, n: nat): (s: nat)
    requires ValidTopology(units, topo) && n <= |units|
    ensures PairCount(units, topo, n) <= s <= 6 * PairCount(units, topo, n)
  {
    if n == 0 then 0 else GridSum(units, topo, n - 1) + NeighbourSum(units, n - 1, topo[n - 1])
  }

  /** Number of (cell, non-empty neighbour) pairs over the cells below `n`. */
  function PairCount(units: seq<int>, topo: Topology, n: nat): nat
    requires ValidTopology(units, topo) && n <= |units|
  {
    if n == 0 then 0 else PairCount(units, topo, n - 1) + NeighbourCount(units, topo[n - 1])
  }

  /**
   * `featureDistAvg` with coverage 1: the summed feature distance over all
   * (cell, non-empty neighbour) pairs, integer-divided by the grid width.
   * Every counted pair contributes between 1 and 6, so the result lies
   * between the pair count and six times it, each divided by the width.
   */
  function FeatureDistAvg(units: seq<int>, topo: Topology, width: int): (r: int)
    requires ValidTopology(units, topo) && width > 0
    ensures r >= 0
    ensures PairCount(units, topo, |units|) / width <= r <= 6 * PairCount(units, topo, |units|) / width
  {
    var pairs := PairCount(units, topo, |units|);
    DivMonotone(pairs, GridSum(units, topo, |units|), width);
    DivMonotone(GridSum(units, topo, |units|), 6 * pairs, width);
    GridSum(units, topo, |units|) / width
  }

  lemma DivMonotone(a: nat, b: nat, w: int)
    requires a <= b && w > 0
    ensures 0 <= a / w <= b / w
  {
    var qa, qb := a / w, b / w;
    assert w * qa + a % w == a && w * qb + b % w == b;
    if qa > qb {
      MulAtLeastStep(w, qb, qa);
      assert false;
    }
  }

  lemma DivAtMost(a: nat, w: int)
    requires w > 0
    ensures a / w <= a
  {
    var q := a / w;
    assert w * q + a % w == a;
    if q > 0 {
      MulAtLeast(q, w);
      assert q * w == w * q;
    }
  }

  lemma MulAtLeastStep(w: int, x: int, y: int)
    requires w > 0 && x < y
    ensures w * x + w <= w * y
  {
    Distrib(w, y, x);
    MulAtLeast(w, y - x);
  }

  /** The program's nested loops compute `FeatureDistAvg`. */
  method FeatureDistAvgLoop(units: seq<int>, topo: Topology, width: int) returns (r: int)
    requires ValidTopology(units, topo) && width > 0
    ensures r == FeatureDistAvg(units, topo, width)
    ensures r >= 0
  {
    var count := 0;
    var dist := 0;
    var c := 0;
    while c < |units|
      invariant 0 <= c <= |units|
      invariant dist == GridSum(units, topo, c)
      invariant count == PairCount(units, topo, c)
    {
      var neighbours := topo[c];
      var j := 0;
      while j < |neighbours|
        invariant 0 <= j <= |neighbours|
        invariant dist == GridSum(units, topo, c) + NeighbourSum(units, c, neighbours[..j])
        invariant count == PairCount(units, topo, c) + NeighbourCount(units, neighbours[..j])
      {
        var neighbour := neighbours[j];
        assert neighbours[..j + 1][..j] == neighbours[..j];
        if units[neighbour] != EmptyValue {
          count := count + 1;
          dist := dist + FeatureDistance(units[c], units[neighbour]);
        }
        j := j + 1;
      }
      assert neighbours[..j] == topo[c];
      c := c + 1;
    }
    r := dist / width;
  }

  // ---------------------------------------------------------------------
  // Number of distinct cultures
  // ---------------------------------------------------------------------

  /** The distinct culture values on the grid, the empty value included. */
  function Cultures(units: seq<int>): set<int>
  {
    set x | x in units
  }

  lemma {:induction false} CulturesAtMostCells(units: seq<int>)
    ensures |Cultures(units)| <= |units|
  {
    if |units| > 0 {
      var init := units[..|units| - 1];
      assert Cultures(units) == Cultures(init) + {units[|units| - 1]} by {
        assert units == init + [units[|units| - 1]];
      }
      CulturesAtMostCells(init);
    }
  }

  /**
   * `similarCount`: the number of distinct culture values. A non-empty grid
   * has at least one and at most one per cell.
   */
  function SimilarCount(units: seq<int>): (r: nat)
    ensures r <= |units|
    ensures |units| > 0 ==> r >= 1
    ensures r == |Cultures(units)|
  {
    CulturesAtMostCells(units);
    if |units| > 0 then
      assert units[0] in Cultures(units);
      |Cultures(units)|
    else
      |Cultures(units)|
  }

  /** The count is 1 exactly when every cell holds the same culture. */
  lemma SimilarCountOneIffUniform(units: seq<int>)
    requires |units| > 0
    ensures SimilarCount(units) == 1 <==> forall i :: 0 <= i < |units| ==> units[i] == units[0]
  {
    if SimilarCount(units) == 1 {
      forall i | 0 <= i < |units|
        ensures units[i] == units[0]
      {
        assert units[i] in Cultures(units) && units[0] in Cultures(units);
        if units[i] != units[0] {
          assert {units[i], units[0]} <= Cultures(units);
          assert |{units[i], units[0]}| == 2;
          SubsetCard({units[i], units[0]}, Cultures(units));
        }
      }
    }
    if forall i :: 0 <= i < |units| ==> units[i] == units[0] {
      assert Cultures(units) == {units[0]};
    }
  }

  lemma SubsetCard(a: set<int>, b: set<int>)
    requires a <= b
    ensures |a| <= |b|
  {
    assert b == a + (b - a);
  }

  /** The program's loop, which collects the values as keys of a map. */
  method SimilarCountLoop(units: seq<int>) returns (r: nat)
    ensures r == SimilarCount(units)
    ensures |units| > 0 ==> 1 <= r <= |units|
  {
    var uniques: map<int, int> := map[];
    var i := 0;
    while i < |units|
      invariant 0 <= i <= |units|
      invariant uniques.Keys == Cultures(units[..i])
    {
      assert units[..i + 1] == units[..i] + [units[i]];
      uniques := uniques[units[i] := units[i]];
      i := i + 1;
    }
    assert units[..i] == units;
    r := |uniques|;
  }
}

=== FILE: simulation.dfy ===
/**
 * The simulation driver: `Init` seeds the grid and resets the three output
 * series; `Process` runs one tick (or halts once the tick counter has passed
 * the duration) and appends one value to each series; `Run` strings ticks
 * together. Every random outcome is an input (a `Seed` per cell, a schedule
 * of samples per tick).
 */
module Simulation {
  import opened Bits
  import opened Codec
  import opened Metrics
  import opened Exchange

  /** One output series: its header followed by one value per tick. */
  datatype Series = Series(header: string, values: seq<int>)

  /** The command-line settings: grid width, interactions per tick (`-n`) and duration (`-d`). */
  datatype Config = Config(width: int, interactions: int, duration: int)

  /** The grid, the tick counter and the three output series. */
  datatype State = State(units: seq<int>, tick: int, fdistances: Series, changes: Series, uniques: Series)

  /** The random outcome for one cell at initialisation: whether it is covered, and the culture `rand.Intn(0xFFFFFF)` drew. */
  datatype Seed = Seed(covered: bool, value: int)

  /** `rand.Intn(0xFFFFFF)` draws from [0, 0xFFFFFE]. */
  predicate InSeedRange(s: Seed)
  {
    0 <= s.value < MaxCulture
  }

  /** The state the program starts in: no grid, tick 0, empty series under their headers. */
  const Start: State := State([], 0, Series("distance", []), Series("change", []), Series("unique", []))

  /**
   * Cell `n` of the grid, in row-major order, is a random culture if its seed
   * is covered and 0xFFFFFF otherwise. The series restart with only their
   * labels; the tick counter is left alone.
   */
  function Init(s: State, width: int, seeds: seq<Seed>): (r: State)
    requires width >= 0 && |seeds| == width * width
    requires forall k :: 0 <= k < |seeds| ==> InSeedRange(seeds[k])
    ensures |r.units| == width * width
    ensures forall k :: 0 <= k < |r.units| ==> (r.units[k] == MaxCulture <==> !seeds[k].covered)
    ensures forall k :: 0 <= k < |r.units| && seeds[k].covered ==> r.units[k] == seeds[k].value
    ensures AllCultures(r.units)
    ensures r.tick == s.tick
    ensures r.fdistances.header == "distance" && r.changes.header == "change" && r.uniques.header == "unique"
    ensures r.fdistances.values == r.changes.values == r.uniques.values == []
  {
    var units := seq(width * width, k requires 0 <= k < width * width =>
                       if seeds[k].covered then seeds[k].value else MaxCulture);
    assert forall k :: 0 <= k < |units| ==> InSeedRange(seeds[k]) && units[k] == if seeds[k].covered then seeds[k].value else MaxCulture;
    State(units, s.tick, Series("distance", []), Series("change", []), Series("unique", []))
  }

  /**
   * Uncovered cells hold 0xFFFFFF, not the value 0 that the exchange loop
   * treats as empty, so they take part in exchanges like any other culture.
   * The only cells the loop skips are covered cells whose random culture
   * happened to be 0.
   */
  lemma InitEmptyCells(s: State, width: int, seeds: seq<Seed>, k: nat)
    requires width >= 0 && |seeds| == width * width
    requires forall i :: 0 <= i < |seeds| ==> InSeedRange(seeds[i])
    requires k < width * width
    ensures Init(s, width, seeds).units[k] == EmptyValue <==> seeds[k].covered && seeds[k].value == 0
  {
  }

  /** How many times the interaction loop `for c := 0; c < n; c++` runs. */
  function Loops(n: int): (k: nat)
    ensures n > 0 ==> k == n
    ensures n <= 0 ==> k == 0
  {
    if n > 0 then n else 0
  }

  /** A series with one more value at the end. */
  function Append(s: Series, v: int): (r: Series)
    ensures r.header == s.header && |r.values| == |s.values| + 1
    ensures r.values[..|s.values|] == s.values && r.values[|s.values|] == v
  {
    Series(s.header, s.values + [v])
  }

  /** The last value of a non-empty series. */
  function Last(s: Series): int
    requires |s.values| > 0
  {
    s.values[|s.values| - 1]
  }

  /** `b` is `a` with `k` values appended and the earlier values untouched. */
  predicate ExtendsBy(a: Series, b: Series, k: nat)
  {
    b.header == a.header && |b.values| == |a.values| + k && b.values[..|a.values|] == a.values
  }

  /** The grid has `width * width` cells and the neighbour table fits it. */
  predicate Ready(s: State, cfg: Config, topo: Topology)
  {
    cfg.width > 0 && |s.units| == cfg.width * cfg.width && ValidTopology(s.units, topo)
  }

  /** One tick's random samples: one per interaction, each fitting the grid. */
  predicate ValidTick(s: State, cfg: Config, topo: Topology, samples: seq<Sample>)
  {
    |samples| == Loops(cfg.interactions) && ValidSamples(|s.units|, topo, samples)
  }

  /** The outcome of `Process`: the program saves its data and exits, or moves to the next tick. */
  datatype Outcome = Halted(state: State) | Ticked(state: State)

  /**
   * One call of `Process`. Once the tick counter has passed the duration the
   * program stops with its state as it is. Otherwise the counter goes up by
   * one, the interactions run, and each series gains exactly one value: the
   * average feature distance and the number of distinct cultures of the
   * resulting grid (0 for both when no interaction runs), and the exchange
   * count divided by the width. Only neighbours of sampled cells can change.
   * The count is never negative, so Go's truncating division agrees with
   * Dafny's here; it is at most the number of neighbour visits, and 0, with
   * the grid unchanged, when no draw is accepted.
   */
  function Process(s: State, cfg: Config, topo: Topology, samples: seq<Sample>): (o: Outcome)
    requires Ready(s, cfg, topo) && ValidTick(s, cfg, topo, samples)
    ensures o.Halted? <==> s.tick > cfg.duration
    ensures o.Halted? ==> o.state == s
    ensures o.Ticked? ==>
              && o.state.tick == s.tick + 1
              && Ready(o.state, cfg, topo)
              && ExtendsBy(s.fdistances, o.state.fdistances, 1)
              && ExtendsBy(s.changes, o.state.changes, 1)
              && ExtendsBy(s.uniques, o.state.uniques, 1)
              && 0 <= Last(o.state.changes) <= Visits(topo, samples)
              && (AllCultures(s.units) ==> AllCultures(o.state.units))
              && forall k :: 0 <= k < |s.units| && Unreached(topo, samples, k) ==> o.state.units[k] == s.units[k]
    ensures o.Ticked? && NoAcceptedDraw(samples) ==>
              && o.state.units == s.units
              && Last(o.state.changes) == 0
    ensures o.Ticked? && cfg.interactions <= 0 ==>
              && o.state.units == s.units
              && Last(o.state.fdistances) == 0 && Last(o.state.changes) == 0 && Last(o.state.uniques) == 0
    ensures o.Ticked? && cfg.interactions > 0 ==>
              && Last(o.state.fdistances) == FeatureDistAvg(o.state.units, topo, cfg.width)
              && Last(o.state.uniques) == SimilarCount(o.state.units)
              && Last(o.state.uniques) >= 1
  {
    if s.tick > cfg.duration then
      Halted(s)
    else
      var t := RunSamples(s.units, topo, cfg.width, samples, 0, 0, 0);
      assert |t.units| > 0 by { GridNotEmpty(cfg.width); }
      var n := State(t.units, s.tick + 1,
                     Append(s.fdistances, t.dist),
                     Append(s.changes, PerRow(t.changes, cfg.width)),
                     Append(s.uniques, t.uniq));
      assert Ready(n, cfg, topo);
      Ticked(n)
  }

  /** The exchange count per grid row, as recorded in the change series. */
  function PerRow(chg: int, width: int): (q: int)
    requires chg >= 0 && width > 0
    ensures 0 <= q <= chg
  {
    DivMonotone(0, chg, width);
    DivAtMost(chg, width);
    chg / width
  }

  lemma GridNotEmpty(width: int)
    requires width > 0
    ensures width * width > 0
  {
    MulAtLeast(width, width);
  }

  /** The final state, the number of ticks run, and whether the program stopped. */
  datatype RunResult = RunResult(state: State, ticks: nat, halted: bool)

  /** A schedule holds one valid tick of samples per call of `Process`. */
  predicate ValidSchedule(s: State, cfg: Config, topo: Topology, schedule: seq<seq<Sample>>)
  {
    forall t :: 0 <= t < |schedule| ==> ValidTick(s, cfg, topo, schedule[t])
  }

  /**
   * Calls `Process` once per entry of the schedule, until the schedule runs
   * out or the program halts.
   */
  function Run(s: State, cfg: Config, topo: Topology, schedule: seq<seq<Sample>>): (r: RunResult)
    requires Ready(s, cfg, topo) && ValidSchedule(s, cfg, topo, schedule)
    ensures Ready(r.state, cfg, topo)
    ensures r.ticks <= |schedule|
    ensures AllCultures(s.units) ==> AllCultures(r.state.units)
    decreases |schedule|
  {
    if |schedule| == 0 then
      RunResult(s, 0, false)
    else
      match Process(s, cfg, topo, schedule[0])
      case Halted(f) => RunResult(f, 0, true)
      case Ticked(n) =>
        assert ValidSchedule(n, cfg, topo, schedule[1..]) by {
          forall t | 0 <= t < |schedule[1..]|
            ensures ValidTick(n, cfg, topo, schedule[1..][t])
          {
            assert ValidTick(s, cfg, topo, schedule[t + 1]);
          }
        }
        var r := Run(n, cfg, topo, schedule[1..]);
        RunResult(r.state, r.ticks + 1, r.halted)
  }

  /** How many more ticks run before `tick > duration` stops the program. */
  function TickBudget(tick: int, duration: int): (b: nat)
    ensures tick <= duration ==> b == duration + 1 - tick
    ensures tick > duration ==> b == 0
  {
    if tick <= duration then duration + 1 - tick else 0
  }

  function Min(a: nat, b: nat): nat
  {
    if a <= b then a else b
  }

  /**
   * A run performs exactly as many ticks as the budget allows (fewer only if
   * the schedule is shorter), stops exactly when the schedule outlasts the
   * budget, advances the counter by the number of ticks, and appends that
   * many values to each series without touching earlier ones.
   */
  lemma {:induction false} RunLength(s: State, cfg: Config, topo: Topology, schedule: seq<seq<Sample>>)
    requires Ready(s, cfg, topo) && ValidSchedule(s, cfg, topo, schedule)
    ensures Run(s, cfg, topo, schedule).ticks == Min(|schedule|, TickBudget(s.tick, cfg.duration))
    ensures Run(s, cfg, topo, schedule).halted <==> |schedule| > TickBudget(s.tick, cfg.duration)
    ensures Run(s, cfg, topo, schedule).state.tick == s.tick + Run(s, cfg, topo, schedule).ticks
    ensures ExtendsBy(s.fdistances, Run(s, cfg, topo, schedule).state.fdistances, Run(s, cfg, topo, schedule).ticks)
    ensures ExtendsBy(s.changes, Run(s, cfg, topo, schedule).state.changes, Run(s, cfg, topo, schedule).ticks)
    ensures ExtendsBy(s.uniques, Run(s, cfg, topo, schedule).state.uniques, Run(s, cfg, topo, schedule).ticks)
    decreases |schedule|
  {
    if |schedule| > 0 {
      var o := Process(s, cfg, topo, schedule[0]);
      if o.Ticked? {
        var n := o.state;
        assert ValidSchedule(n, cfg, topo, schedule[1..]) by {
          forall t | 0 <= t < |schedule[1..]|
            ensures ValidTick(n, cfg, topo, schedule[1..][t])
          {
            assert ValidTick(s, cfg, topo, schedule[t + 1]);
          }
        }
        RunLength(n, cfg, topo, schedule[1..]);
        var r := Run(n, cfg, topo, schedule[1..]);
        assert Run(s, cfg, topo, schedule) == RunResult(r.state, r.ticks + 1, r.halted);
        SeriesGrowth(s.fdistances, n.fdistances, r.state.fdistances, r.ticks);
        SeriesGrowth(s.changes, n.changes, r.state.changes, r.ticks);
        SeriesGrowth(s.uniques, n.uniques, r.state.uniques, r.ticks);
      }
    }
  }

  /** One append followed by `k` more is `k + 1` appends. */
  lemma SeriesGrowth(a: Series, b: Series, c: Series, k: nat)
    requires ExtendsBy(a, b, 1) && ExtendsBy(b, c, k)
    ensures ExtendsBy(a, c, k + 1)
  {
    assert c.values[..|a.values|] == c.values[..|b.values|][..|a.values|];
  }

  /**
   * From the start state, with a grid seeded by `Init` and a schedule longer
   * than the duration, the program runs exactly `duration + 1` ticks (the
   * check is `tick > duration`, not `>=`), then halts with `duration + 1`
   * values in each series and the counter at `duration + 1`.
   */
  lemma StartRunsDurationPlusOneTicks(cfg: Config, seeds: seq<Seed>, topo: Topology, schedule: seq<seq<Sample>>)
    requires cfg.width > 0 && cfg.duration >= 0
    requires |seeds| == cfg.width * cfg.width && forall k :: 0 <= k < |seeds| ==> InSeedRange(seeds[k])
    requires ValidTopology(Init(Start, cfg.width, seeds).units, topo)
    requires ValidSchedule(Init(Start, cfg.width, seeds), cfg, topo, schedule)
    requires |schedule| > cfg.duration + 1
    ensures var r := Run(Init(Start, cfg.width, seeds), cfg, topo, schedule);
              && r.halted && r.ticks == cfg.duration + 1 && r.state.tick == cfg.duration + 1
              && |r.state.fdistances.values| == cfg.duration + 1
              && |r.state.changes.values| == cfg.duration + 1
              && |r.state.uniques.values| == cfg.duration + 1
  {
    RunLength(Init(Start, cfg.width, seeds), cfg, topo, schedule);
  }

  /**
   * After `Init`, however many ticks a run performs, the three series hold
   * one value per tick each, so they always have the same length.
   */
  lemma InitRunSeriesAligned(s: State, cfg: Config, seeds: seq<Seed>, topo: Topology, schedule: seq<seq<Sample>>)
    requires cfg.width > 0
    requires |seeds| == cfg.width * cfg.width && forall k :: 0 <= k < |seeds| ==> InSeedRange(seeds[k])
    requires ValidTopology(Init(s, cfg.width, seeds).units, topo)
    requires ValidSchedule(Init(s, cfg.width, seeds), cfg, topo, schedule)
    ensures var r := Run(Init(s, cfg.width, seeds), cfg, topo, schedule);
              |r.state.fdistances.values| == |r.state.changes.values| == |r.state.uniques.values| == r.ticks
  {
    RunLength(Init(s, cfg.width, seeds), cfg, topo, schedule);
  }
}
